=== FILE: README.md ===
# tokenoptimizer — a Dafny model of the credential store, the CLI decisions and the API client

`tokenoptimizer` is a command-line client for The Token Company's compression
API. It reads a prompt from its arguments, a file or piped stdin. It sends the
prompt to `https://api.thetokencompany.com/v1/compress` with an API key and an
aggressiveness between 0 and 1. It then prints the compressed text and token
statistics. The API key comes from the environment variable
`TOKENOPTIMIZER_API_KEY` or from `~/.config/tokenoptimizer/config`, which the
`auth set / show / delete / path` subcommands manage.

This project models the three places where that program makes decisions. All
of them are pure functions over explicit state:

- `config.dfy`, module `Config` (`tokenoptimizer/config.py`): the config path,
  and saving, loading and deleting the key. The environment is a
  `map<string, string>`. The filesystem is a `Store`: whether the directory
  exists, and the config file if it exists: its text and permission bits, or
  the exception reading it raises.
- `client.dfy`, module `Client` (`tokenoptimizer/client.py`): the statistics of
  a `CompressionResult`, and `compress`. `compress` checks the range, builds
  the request and classifies the answer into a closed `Outcome`: `Ok`,
  `AuthErr`, `ApiErr`, `ValueErr`, or `Uncaught` for exceptions the method lets
  escape. The transport's answer is a parameter. `Compress` returns the
  request it sent, if any, so "no request is made" and "at most one request"
  can be stated directly.
- `cli.dfy`, module `Cli` (`tokenoptimizer/cli.py`): `cmd_auth`,
  `cmd_optimize` and `main`. Parsed arguments are records. What the process
  reads lives in a `World` record: environment, home directory, store, files,
  whether stdin is a terminal, stdin's text, and the line typed at the key
  prompt. A run ends in a `Run`: the exit code, the writes to stdout and
  stderr, the store afterwards, and the request sent.
- `text.dfy`, module `Text`: the Python string behaviour the code relies on.
  This covers `str.isspace`, `str.strip`, `" ".join`, `"*" * n`, `str(int)`
  and the newline translation of a file read in text mode.
  `Strip` is characterised independently: padding a trimmed string with
  whitespace and stripping it gives the string back.
- `wrappers.dfy`, module `Wrappers`: `Option`.

Behaviour of the code worth knowing:

- There is no per-invocation key override: the key is only the environment
  value or the file.
- An empty environment value counts as unset. A whitespace-only one does not:
  it loads as `""`, hides the file, and the optimize command then reports
  that no key is configured.
- The config file is overwritten in place, not replaced atomically. A config
  file that cannot be read or decoded is not reported as an error of its own:
  `auth show` and the optimize command end with the exception's traceback.
- The key is written as it is but read back in universal-newlines mode, so a
  carriage return inside a saved key loads as a line feed.
- There is no check that `--max-tokens` ≥ `--min-tokens`. Both go to the API
  unchanged.
- When a preset flag and `-a` are both given, the code lets the preset win.
  argparse's mutually exclusive group rejects that combination anyway.
  `AggressivenessUnderArgparse` shows that under the group an explicit `-a` is
  never overridden.
- Every failure exits with code 1, through `error()`, or through an uncaught
  exception's traceback, or (for `auth` with no action) after printing help.
  There are no per-category exit codes.
- A timeout and a connection failure are both `APIError`, told apart only by
  their message. 429 and 5xx are not separate kinds. Every not-ok status other
  than 401/403 is one `APIError` whose message names the status. Nothing is
  retried.

## Model

| member | source | states |
|---|---|---|
| `Config.GetConfigPath` | tokenoptimizer/config.py:6-13 | the config path depends only on the home directory and is the file `config` inside the config directory `~/.config/tokenoptimizer` |
| `Config.SaveApiKey` | tokenoptimizer/config.py:16-25 | after a save the directory exists, the file exists with mode 0o600 and holds exactly the stripped key, written without translation, so it is trimmed and empty exactly when the key was all whitespace |
| `Config.LoadApiKey` | tokenoptimizer/config.py:28-43 | a loaded key is always trimmed; nothing loads exactly when the environment gives no non-empty value and there is no file; the load crashes exactly when it falls back to a file that cannot be read, with that file's exception |
| `Config.DeleteApiKey` | tokenoptimizer/config.py:46-51 | reports true iff the file existed; afterwards the file is absent and the directory is untouched |
| `Config.EnvOverridesFile` | tokenoptimizer/config.py:36-38 | a non-empty environment value loads stripped, whatever the file holds |
| `Config.BlankEnvShadowsFile` | tokenoptimizer/config.py:36-38 | a whitespace-only environment value is truthy, so it loads as "" and the file is never consulted |
| `Config.FileUsedWithoutEnv` | tokenoptimizer/config.py:36-43 | with the variable absent or empty, the file decides: its text with newlines translated and stripped, the exception its read raises, or None when there is no file |
| `Config.SaveThenLoad` | tokenoptimizer/config.py:21-43 | round trip: after saving k, with no usable environment value, loading gives k stripped with its carriage returns read back as line feeds |
| `Config.SaveThenLoadPlainKey` | tokenoptimizer/config.py:21-43 | a key without a carriage return loads back after a save exactly as saved, stripped |
| `Config.CarriageReturnKeyLoadsChanged` | tokenoptimizer/config.py:24-41 | the key `ab\rcd` is written as it is and loads back as `ab\ncd` |
| `Config.SaveBlankStoresEmpty` | tokenoptimizer/config.py:21-25 | saving a whitespace-only key leaves the directory and an empty, owner-only config file |
| `Config.DeleteThenLoad` | tokenoptimizer/config.py:40-51 | after a delete, with no usable environment value, nothing loads |
| `Config.DeleteIdempotent` | tokenoptimizer/config.py:46-51 | a second delete reports false and leaves the store as the first left it |
| `Text.UniversalNewlines` | tokenoptimizer/config.py:41 | text read in universal-newlines mode holds no carriage return, is no longer than the raw text, and keeps its first and last characters except that a carriage return there becomes a line feed |
| `Text.UniversalNewlinesKeepsPlainText` | tokenoptimizer/config.py:41 | text without a carriage return reads back unchanged |
| `Text.UniversalNewlinesIdempotent` | tokenoptimizer/config.py:41 | translating newlines twice is translating once |
| `Text.CarriageReturnBecomesNewline` | tokenoptimizer/config.py:41 | both a lone carriage return and a CR LF pair inside text read back as one line feed |
| `Text.UniversalNewlinesConcat` | tokenoptimizer/config.py:41 | the translation of a text is the translation of its pieces, for any cut that does not split a CR LF pair |
| `Text.CrLfBecomesNewline` | tokenoptimizer/config.py:41 | for all text around it, a CR LF pair reads back as one line feed and the text on either side is translated on its own |
| `Text.LoneCarriageReturnBecomesNewline` | tokenoptimizer/config.py:41 | for all text around it, a carriage return not followed by a line feed reads back as one line feed |
| `Text.UniversalNewlinesOfTrimmed` | tokenoptimizer/config.py:24-41 | a stripped key read back with translated newlines is still stripped, so the load's strip leaves it alone |
| `Text.Strip` | tokenoptimizer/config.py:24 | the result has no whitespace at either end and is the slice of the input between its leading and its trailing whitespace |
| `Text.StripOfPadded` | tokenoptimizer/config.py:41 | uniqueness of strip: padding a trimmed string with whitespace on both sides and stripping returns it |
| `Text.StripIdempotent` | tokenoptimizer/config.py:24 | stripping a stored (already stripped) key changes nothing, which makes save/load round-trip |
| `Text.StripAddsNothing` | tokenoptimizer/config.py:38-41 | stripping only removes characters: a character absent from the text is absent from the stripped text |
| `Text.StripEmptyIff` | tokenoptimizer/cli.py:119-120 | `not text.strip()` holds exactly when the text is all whitespace (including empty) |
| `Text.Join` | tokenoptimizer/cli.py:105 | joined prompt words have the words' total length plus one separator between each pair, and a single word joins to itself |
| `Text.JoinAppend` | tokenoptimizer/cli.py:105 | one more word at the end adds one separator and that word to the joined text |
| `Text.JoinAllSpaceIff` | tokenoptimizer/cli.py:105 | prompt words joined by a space are all whitespace exactly when every word is |
| `Text.Repeat` | tokenoptimizer/cli.py:70-72 | `"*" * n` has length n and every character is '*' |
| `Text.NatToString` | tokenoptimizer/cli.py:150-152 | `str(n)` is non-empty decimal digits with no leading zero |
| `Text.NatToStringRoundTrip` | tokenoptimizer/cli.py:150-152 | reading the printed digits back gives the number |
| `Text.IntToStringInjective` | tokenoptimizer/client.py:130 | distinct integers print as distinct text |
| `Client.TokensSavedBalance` | tokenoptimizer/client.py:19-22 | tokens saved plus output tokens equals input tokens; saved is non-negative iff output ≤ input |
| `Client.CompressionResult.CompressionRatio` | tokenoptimizer/client.py:24-29 | the ratio is 0 for empty input, and otherwise ratio × input tokens = 100 × tokens saved |
| `Client.RatioMeasuresSaved` | tokenoptimizer/client.py:24-29 | for non-zero input the ratio is the saved tokens as a percentage of the input tokens |
| `Client.RatioBounds` | tokenoptimizer/client.py:24-29 | when 0 ≤ output ≤ input, the ratio lies in [0, 100]: 0 iff nothing saved or empty input, 100 iff the output is empty |
| `Client.Headers` | tokenoptimizer/client.py:89-92 | exactly two headers: JSON content type and "Bearer " followed by the key |
| `Client.BuildRequest` | tokenoptimizer/client.py:89-110 | the request goes to the API URL with the client's timeout, and the caller's model, text, aggressiveness and token limits go unchanged into the payload |
| `Client.ErrorDetail` | tokenoptimizer/client.py:124-129 | the detail is the body's `error.message` when the body is an object with an `error` object holding `message`, and the raw body text in every other case |
| `Client.ReadResult` | tokenoptimizer/client.py:137-142 | a well-formed success body yields a result whose fields are the body's values verbatim; anything else is an uncaught exception |
| `Client.Classify` | tokenoptimizer/client.py:104-142 | each transport failure gives its own `APIError` message; 401 and 403 give `AuthenticationError` with their two messages, and only they do; any other not-ok status gives `APIError` naming the status and detail; an ok response gives "Invalid JSON response from API" without a parsed body and otherwise the result read from it; a `ValueError` raised by `requests.post` itself (a timeout urllib3 refuses, a header that is not Latin-1) passes through unchanged, and no other answer gives `ValueError` |
| `Client.Compress` | tokenoptimizer/client.py:61-142 | a request is sent iff aggressiveness is in [0, 1]; out of range gives `ValueError` and no request; in range, exactly one request is posted as JSON to the API URL with the client's timeout, the bearer key and the unchanged payload, and its answer is classified |
| `Client.TransportMessagesDistinct` | tokenoptimizer/client.py:111-116 | timeout, connection failure and other request failures have pairwise different messages, none of them a status message |
| `Client.ClassifyIdentifiesTransportFailure` | tokenoptimizer/client.py:111-135 | an outcome caused by a timeout, a connection failure or another request failure is caused by nothing else: no other transport answer or response is classified the same |
| `Client.StatusMessageNamesStatus` | tokenoptimizer/client.py:124-130 | a status error's message determines its status code |
| `Cli.Error` | tokenoptimizer/cli.py:31-34 | `error()` appends one `error: <message>` line to stderr and exits with 1, leaving store and request as they were |
| `Cli.Mask` | tokenoptimizer/cli.py:69-72 | the masked key has the key's length; longer than 8, it keeps the first and last 4 characters and stars the middle; otherwise it is all stars |
| `Cli.CmdAuth` | tokenoptimizer/cli.py:49-92 | auth never sends a request; exit 1 exactly for `set` with an empty key or `show` with a config file that cannot be read; only `set` and `delete` change the store, by save and delete respectively; `path` prints exactly the config path on stdout and changes nothing |
| `Cli.AuthSetRejectsEmpty` | tokenoptimizer/cli.py:51-59 | an empty key (an empty `--key` falls back to the prompt, whose line is stripped) exits 1 with the error line and saves nothing |
| `Cli.AuthSetWrites` | tokenoptimizer/cli.py:51-63 | a successful `auth set` exits 0 with nothing on stdout; stderr holds the key prompt unless a non-empty `--key` was given, then "API key saved to" and the config path |
| `Cli.AuthSetThenLoad` | tokenoptimizer/cli.py:51-63 | after a successful `auth set`, with no usable environment value, the entered key loads back stripped, carriage returns as line feeds, from an owner-only file |
| `Cli.AuthSetBlankKeyFlagSavesEmpty` | tokenoptimizer/cli.py:52-61 | a whitespace-only `--key` passes the emptiness check, is saved as "", and `auth show` then reports no key |
| `Cli.AuthShowMasksKey` | tokenoptimizer/cli.py:65-79 | `auth show` prints the masked effective key, or three lines of advice when no non-empty key loads, with exit 0 and nothing on stderr; a config file it cannot read ends it with a traceback and exit 1 |
| `Cli.AuthShowSourceByPresence` | tokenoptimizer/cli.py:74 | the Source line tests the variable's presence: an empty variable with a stored key says "environment" |
| `Cli.AuthShowUsableKey` | tokenoptimizer/cli.py:66-74 | with a non-empty key loaded, `auth show` prints exactly the masked key and the source line |
| `Cli.AuthDeleteReports` | tokenoptimizer/cli.py:81-86 | `auth delete` says whether a key was deleted; repeated, it says none was found and changes nothing |
| `Cli.ReadInput` | tokenoptimizer/cli.py:104-117 | text is found iff there are prompt words, or a readable `--file`, or (no file) a non-tty stdin, and comes from the highest-precedence source; an undecodable file crashes; a missing file fails with "File not found: <path>", an unreadable one with "Failed to read file: <reason>", and a terminal stdin with nothing else given with the no-input message |
| `Cli.PromptWins` | tokenoptimizer/cli.py:104-105 | prompt words, joined by single spaces, win whatever the file and stdin hold |
| `Cli.FileBeatsStdin` | tokenoptimizer/cli.py:106-113 | without prompt words a given `--file` decides, whatever stdin is |
| `Cli.StdinOnlyWhenNotTty` | tokenoptimizer/cli.py:114-117 | with no prompt and no file, a terminal stdin is an error whatever it holds |
| `Cli.BlankPromptIff` | tokenoptimizer/cli.py:104-120 | prompt text is blank exactly when every prompt word is blank |
| `Cli.ResolveAggressiveness` | tokenoptimizer/cli.py:24-28 | any preset flag gives a preset value that passes the client's range check; with no preset the `-a` value, default 0.5, is used |
| `Cli.AggressivenessUnderArgparse` | tokenoptimizer/cli.py:254-276 | under the mutually exclusive group the single option given decides: `-a v` gives v, light 0.2, moderate 0.5, aggressive 0.8, none 0.5 |
| `Cli.PrintStats` | tokenoptimizer/cli.py:37-46 | `print_stats` writes one line to stderr unless quiet, and nothing when quiet |
| `Cli.RenderResult` | tokenoptimizer/cli.py:148-157 | stats-only prints exactly the five statistics lines to stdout and nothing to stderr; otherwise stdout is exactly the output text and stderr is the one summary line, or nothing when quiet |
| `Cli.StatsOnlyIgnoresTextAndQuiet` | tokenoptimizer/cli.py:149-154 | stats-only output does not depend on the optimized text or on `-q`: stats-only takes precedence |
| `Cli.QuietIsTextOnly` | tokenoptimizer/cli.py:155-157 | quiet output is the optimized text alone |
| `Cli.CmdOptimize` | tokenoptimizer/cli.py:95-159 | never changes the store; exit code 0 or 1 with every failure reported; success implies a request; a request goes out only with a non-empty key, non-blank input and in-range aggressiveness, posted as JSON to the API URL and carrying that key, text, aggressiveness, token limits and timeout |
| `Cli.NoKeyStopsFirst` | tokenoptimizer/cli.py:97-101 | a missing or empty key gives one error line and exit 1 before any input is read or request made, whatever the inputs |
| `Cli.InputFailureReported` | tokenoptimizer/cli.py:103-117 | with a key, an input failure becomes exactly one `error:` line with its message and exit 1, with nothing on stdout and no request |
| `Cli.UnloadableConfigCrashes` | tokenoptimizer/cli.py:65-98 | a config file that cannot be read, with no usable environment value, ends both `auth show` and the optimize command with its traceback and exit 1, before any input is read or request made |
| `Cli.BlankEnvKeyHidesStoredKey` | tokenoptimizer/cli.py:97-101 | a whitespace-only environment value makes optimize report that no key is configured, even with a stored key |
| `Cli.BlankInputRejected` | tokenoptimizer/cli.py:119-120 | whitespace-only input exits 1 with "Input text is empty" and no request |
| `Cli.OutcomeDecidesRun` | tokenoptimizer/cli.py:131-157 | with a key and usable input, a result is rendered by the output flags with exit 0; an auth error becomes "Authentication failed: …", API and value errors their message, each on one error line, and an exception `compress` lets escape a traceback, all with exit 1 and nothing on stdout; an out-of-range aggressiveness sends nothing |
| `Cli.HelloWorldRun` | tokenoptimizer/cli.py:95-157 | `tokenoptimizer Hello world` with a usable key sends "Hello world" at the default 0.5, and a 200 reply with two tokens in and out prints the output on stdout and one summary on stderr, with exit 0 and a 0.0% ratio |
| `Cli.Main` | tokenoptimizer/cli.py:316-329 | auth parsing iff argv[1] is "auth"; auth without an action prints help and returns 1; otherwise the optimize command runs on argv[1:]; every exit code is 0 or 1, and every 1 is reported |

## Left out

- Real I/O. The environment, the filesystem, the home directory, stdin and
  tty detection are `World` fields. The HTTP exchange is the `reply`
  parameter. A `--file` and stdin hold the text Python would decode, with
  newlines already translated; only the config file is kept as raw text and
  translated when it is read.
- argparse. The parsed records are inputs, and `Main` takes the two parsers as
  function parameters. Not modelled: usage errors (exit code 2), the help and
  epilog text, `--version`, and argparse's own conversion of `-a`,
  `--max-tokens`, `--min-tokens` and `--timeout`.
- Float formatting. The ratio and the time are printed with `:.1f` / `:.2f`,
  kept as `Fixed` writes that carry the exact real. `print_stats`'s line is a
  `Summary` write. Rounding is not modelled. NaN and infinite aggressiveness
  cannot be expressed with reals.
- Client.Show: Python's `repr` of a float, list or dict found in `error.message` is
  rendered as a fixed marker. None, booleans, integers and strings are exact.
- Client.ReadResult: a success body that has all four keys but a field of the wrong
  JSON type counts as an uncaught `TypeError`. Python would store the value
  unchecked and might fail only later, when printing statistics.
- Client.Classify: the response's `ok` flag is an input field. Requests'
  rule for it (no 4xx/5xx status) is library code outside the repository.
- Config.GetConfigPath and Config.PathText: pathlib's normalisation is not
  modelled. The printed path is the home directory, "/", then the components
  joined by "/".
- Filesystem failures in `save_api_key` and `delete_api_key`, including a
  config path that is a directory. Both propagate as uncaught exceptions in
  the source. Reading such a path is modelled, as an unloadable file, but
  `DeleteApiKey` removes an unloadable file whatever made it unreadable.
- `write_text` translating "\n" to the platform's line separator: the store
  holds what a POSIX system writes.
- Strings are sequences of Unicode scalar values. A Python `str` holding a
  lone surrogate has no counterpart.
- End of input at the `auth set` prompt (`EOFError`), and undecodable stdin.
- The relative order of writes to stdout and stderr: each stream's order is
  kept, their interleaving is not.
- Library behaviour of `requests.post`, for example how it rejects a
  non-positive timeout. The transport's answer is an input.

=== FILE: cli.dfy ===
/**
  The command-line layer of `tokenoptimizer/cli.py`: the `auth` subcommands,
  the default optimize command and the dispatch in `main`.

  Everything the Python code reads from the process is a field of `World`:
  the environment, the home directory, the config store, readable files,
  whether stdin is a terminal and what it holds, and the line typed at the
  key prompt. What the API would answer is the parameter `reply`. A run ends
  in a `Run`: the exit code, what went to stdout and stderr, the config store
  afterwards and the request sent to the API, if any.
 */
module Cli {
  import opened Wrappers
  import Text
  import Config
  import Client

  /** `PRESETS`: the aggressiveness behind `--light`, `--moderate`, `--aggressive`. */
  const Presets: map<string, real> := map["light" := 0.2, "moderate" := 0.5, "aggressive" := 0.8]

  /** argparse's default for `--aggressiveness`. */
  const DefaultAggressiveness: real := 0.5

  /** The parsed optimize command line. `aggressiveness` is `None` when `-a`
      was not given (the namespace then holds the default 0.5). */
  datatype Args = Args(
    prompt: seq<string>,
    file: Option<string>,
    aggressiveness: Option<real>,
    light: bool,
    moderate: bool,
    aggressive: bool,
    maxTokens: Option<int>,
    minTokens: Option<int>,
    quiet: bool,
    statsOnly: bool,
    timeout: int)

  /** The parsed `auth` command line: which action, and `--key` for `set`. */
  datatype AuthAction = SetKey(key: Option<string>) | ShowKey | DeleteKey | ShowPath

  /** A file as `open(path, "r").read()` sees it: its decoded text, an
      `OSError` other than "not found" (by its message), or undecodable bytes. */
  datatype FileEntry = Readable(text: string) | Unreadable(reason: string) | Undecodable

  /** The process state a run reads. A path missing from `files` does not exist. */
  datatype World = World(
    env: map<string, string>,
    home: string,
    store: Config.Store,
    files: map<string, FileEntry>,
    stdinIsTty: bool,
    stdin: string,
    typed: string)

  /** One write to stdout or stderr. `Line` is `print(text)`, `Prompt` is
      `print(text, end="")`, `Fixed` is a `print` of a caption, a number with a
      fixed count of decimals and a suffix, `Summary` is the one line
      `print_stats` writes, `Help` is the auth parser's help text and
      `Traceback` is Python's report of an uncaught exception. */
  datatype Write =
    | Line(text: string)
    | Prompt(text: string)
    | Fixed(caption: string, value: real, decimals: nat, suffix: string)
    | Summary(result: Client.CompressionResult)
    | Help
    | Traceback(exception: string)

  /** How a run ends. */
  datatype Run = Run(
    code: int,
    stdout: seq<Write>,
    stderr: seq<Write>,
    store: Config.Store,
    sent: Option<Client.Request>)

  const NoKeyMessage := "No API key configured. Run 'tokenoptimizer auth set' or set " + Config.EnvVarName
  const NoInputMessage := "No input provided. Use --prompt, --file, or pipe via stdin"
  const EmptyInputMessage := "Input text is empty"
  const EmptyKeyMessage := "API key cannot be empty"
  const KeyPrompt := "Enter your API key: "

  /** The line `error(message)` writes to stderr. */
  function ErrorLine(message: string): Write {
    Line("error: " + message)
  }

  /** `error(message)`: the message on stderr after whatever was written
      before, then exit code 1. Nothing else changes. */
  function Error(message: string, before: seq<Write>, store: Config.Store, sent: Option<Client.Request>): (r: Run)
    ensures r.code == 1 && r.stdout == []
    ensures |r.stderr| > 0 && r.stderr[..|r.stderr| - 1] == before
    ensures r.stderr[|r.stderr| - 1] == ErrorLine(message) && IsErrorLine(r.stderr[|r.stderr| - 1])
    ensures r.store == store && r.sent == sent
  {
    Run(1, [], before + [ErrorLine(message)], store, sent)
  }

  /** An exception nobody catches: Python prints a traceback and exits with 1. */
  function Crash(exception: string, before: seq<Write>, store: Config.Store, sent: Option<Client.Request>): Run {
    Run(1, [], before + [Traceback(exception)], store, sent)
  }

  /** A line `error()` wrote: it starts with `error: `. */
  predicate IsErrorLine(x: Write) {
    x.Line? && |x.text| >= 7 && x.text[..7] == "error: "
  }

  /** A failed run reports itself: an `error:` line or a traceback ends
      stderr, or (for `auth` without an action) the help went to stdout. */
  predicate ReportsFailure(r: Run) {
    || (|r.stderr| > 0 && (r.stderr[|r.stderr| - 1].Traceback? || IsErrorLine(r.stderr[|r.stderr| - 1])))
    || r.stdout == [Help]
  }

  /** Exit codes are 0 or 1, and every 1 is reported. */
  predicate ExitDiscipline(r: Run) {
    (r.code == 0 || r.code == 1) && (r.code == 1 ==> ReportsFailure(r))
  }

  // ---------------------------------------------------------------------
  // auth

  /** The key `auth show` prints: a key longer than 8 characters keeps its
      first and last 4 characters, and every other character becomes '*'. */
  function Mask(k: string): (m: string)
    ensures |m| == |k|
    ensures forall i | 0 <= i < |k| :: m[i] == (if |k| > 8 && (i < 4 || i >= |k| - 4) then k[i] else '*')
  {
    if |k| > 8 then k[..4] + Text.Repeat('*', |k| - 8) + k[|k| - 4..]
    else Text.Repeat('*', |k|)
  }

  /** The `Source:` word of `auth show`: the variable's presence decides,
      not whether its value is usable. */
  function KeySource(env: map<string, string>): string {
    if Config.EnvVarName in env then "environment" else "config file"
  }

  /** A loaded key is truthy: a key was found and it is not empty. */
  predicate UsableKey(k: Config.Loaded) {
    k.Key? && k.key != ""
  }

  /** `--key` is used when it is given and non-empty. */
  predicate KeyFlagUsed(key: Option<string>) {
    key.Some? && key.value != ""
  }

  /** The key `auth set` goes on with: `--key` verbatim, or else the
      prompted line stripped. */
  function EnteredKey(key: Option<string>, typed: string): string {
    if KeyFlagUsed(key) then key.value else Text.Strip(typed)
  }

  /** `cmd_auth(args)`. It never contacts the API; only `set` and `delete`
      change the store; `show` crashes when the config file cannot be read. */
  function CmdAuth(action: AuthAction, w: World): (r: Run)
    ensures r.sent.None?
    ensures ExitDiscipline(r)
    ensures r.code == 1 <==>
      || (action.SetKey? && EnteredKey(action.key, w.typed) == "")
      || (action.ShowKey? && Config.LoadApiKey(w.env, w.store).LoadCrashed?)
    ensures r.store != w.store ==> action.SetKey? || action.DeleteKey?
    ensures action.SetKey? && r.code == 0 ==> r.store == Config.SaveApiKey(w.store, EnteredKey(action.key, w.typed))
    ensures action.DeleteKey? ==> r.store == Config.DeleteApiKey(w.store).after
    ensures action.ShowPath? ==> r == Run(0, [Line(Config.PathText(Config.GetConfigPath(w.home)))], [], w.store, None)
  {
    match action
    case SetKey(key) =>
      var before := if KeyFlagUsed(key) then [] else [Prompt(KeyPrompt)];
      var apiKey := EnteredKey(key, w.typed);
      if apiKey == "" then Error(EmptyKeyMessage, before, w.store, None)
      else
        var saved := Config.SaveApiKey(w.store, apiKey);
        Run(0, [], before + [Line("API key saved to " + Config.PathText(Config.GetConfigPath(w.home)))], saved, None)
    case ShowKey =>
      var k := Config.LoadApiKey(w.env, w.store);
      if k.LoadCrashed? then Crash(k.exception, [], w.store, None)
      else if UsableKey(k) then
        Run(0, [Line("API key: " + Mask(k.key)), Line("Source: " + KeySource(w.env))], [], w.store, None)
      else
        Run(0, [Line("No API key configured"), Line("Set one with: tokenoptimizer auth set"),
                Line("Or set " + Config.EnvVarName + " environment variable")], [], w.store, None)
    case DeleteKey =>
      var d := Config.DeleteApiKey(w.store);
      Run(0, [], [Line(if d.deleted then "API key deleted" else "No stored API key found")], d.after, None)
    case ShowPath =>
      Run(0, [Line(Config.PathText(Config.GetConfigPath(w.home)))], [], w.store, None)
  }

  /** A successful `auth set` prints nothing on stdout. On stderr it writes
      the key prompt, unless a non-empty `--key` was given, and then the
      line naming the file the key was saved to. */
  lemma AuthSetWrites(key: Option<string>, w: World)
    requires EnteredKey(key, w.typed) != ""
    ensures var r := CmdAuth(SetKey(key), w);
      && r.code == 0
      && r.stdout == []
      && r.stderr == (if KeyFlagUsed(key) then [] else [Prompt(KeyPrompt)])
                     + [Line("API key saved to " + Config.PathText(Config.GetConfigPath(w.home)))]
  {
  }

  /** `auth set` with an empty key (an empty prompted line after stripping;
      an empty `--key` falls back to the prompt) exits with 1 and saves nothing. */
  lemma AuthSetRejectsEmpty(key: Option<string>, w: World)
    requires EnteredKey(key, w.typed) == ""
    ensures CmdAuth(SetKey(key), w).code == 1
    ensures CmdAuth(SetKey(key), w).store == w.store
    ensures CmdAuth(SetKey(key), w).stderr[|CmdAuth(SetKey(key), w).stderr| - 1] == ErrorLine(EmptyKeyMessage)
  {
  }

  /** Round trip through the CLI: after a successful `auth set`, and with no
      usable environment value, the key loads back stripped (with carriage
      returns read back as line feeds), and the file is owner-only. */
  lemma AuthSetThenLoad(key: Option<string>, w: World)
    requires !Config.EnvKeySet(w.env)
    requires EnteredKey(key, w.typed) != ""
    ensures Config.LoadApiKey(w.env, CmdAuth(SetKey(key), w).store)
         == Config.Key(Text.UniversalNewlines(Text.Strip(EnteredKey(key, w.typed))))
    ensures CmdAuth(SetKey(key), w).store.file.value.mode == Config.OwnerReadWrite
  {
    Config.SaveThenLoad(w.env, w.store, EnteredKey(key, w.typed));
  }

  /** `--key` is not stripped before the emptiness check: a whitespace-only
      `--key` is accepted, saved as the empty string, and afterwards (with no
      usable environment value) `auth show` reports no key. */
  lemma {:induction false} AuthSetBlankKeyFlagSavesEmpty(k: string, w: World)
    requires k != "" && Text.AllSpace(k)
    requires !Config.EnvKeySet(w.env)
    ensures var saving := CmdAuth(SetKey(Some(k)), w);
            && saving.code == 0
            && saving.store.file == Some(Config.TextFile("", Config.OwnerReadWrite))
            && var shown := CmdAuth(ShowKey, w.(store := saving.store)).stdout;
               |shown| > 0 && shown[0] == Line("No API key configured")
  {
    var saving := CmdAuth(SetKey(Some(k)), w);
    assert EnteredKey(Some(k), w.typed) == k;
    Config.SaveBlankStoresEmpty(w.store, k);
    var w2 := w.(store := saving.store);
    assert Config.LoadApiKey(w2.env, w2.store) == Config.Key("") by {
      assert Text.UniversalNewlines("") == "";
      assert [] + "" + [] == "";
      Text.StripOfPadded([], "", []);
    }
    AuthShowMasksKey(w2);
  }

  /** `auth show` prints the masked effective key, or three lines of advice
      when no non-empty key loads; a config file it cannot read ends the
      command with a traceback. */
  lemma AuthShowMasksKey(w: World)
    ensures var k := Config.LoadApiKey(w.env, w.store);
            var r := CmdAuth(ShowKey, w);
            && (k.LoadCrashed? ==> r == Run(1, [], [Traceback(k.exception)], w.store, None))
            && (!k.LoadCrashed? ==> r.code == 0 && r.stderr == [])
            && (UsableKey(k) ==> r.stdout[0] == Line("API key: " + Mask(k.key)))
            && (k.NoKey? || k == Config.Key("") ==> |r.stdout| == 3 && r.stdout[0] == Line("No API key configured"))
  {
  }

  /** `auth show` labels the source by the variable's presence: an empty
      environment value with a stored key reports "environment" although the
      key came from the file. */
  lemma AuthShowSourceByPresence(w: World, contents: string, mode: nat)
    requires Config.EnvVarName in w.env && w.env[Config.EnvVarName] == ""
    requires w.store.file == Some(Config.TextFile(contents, mode))
    requires Text.Strip(Text.UniversalNewlines(contents)) != ""
    ensures CmdAuth(ShowKey, w).stdout ==
      [Line("API key: " + Mask(Text.Strip(Text.UniversalNewlines(contents)))), Line("Source: " + KeySource(w.env))]
    ensures KeySource(w.env) == "environment"
  {
    Config.FileUsedWithoutEnv(w.env, w.store);
    AuthShowUsableKey(w, Text.Strip(Text.UniversalNewlines(contents)));
  }

  /** With a non-empty key loaded, `auth show` prints exactly the masked key
      and its source. */
  lemma AuthShowUsableKey(w: World, key: string)
    requires Config.LoadApiKey(w.env, w.store) == Config.Key(key) && key != ""
    ensures CmdAuth(ShowKey, w).stdout == [Line("API key: " + Mask(key)), Line("Source: " + KeySource(w.env))]
  {
  }

  /** `auth delete` reports whether a stored key existed; repeated, it
      reports none and changes nothing. */
  lemma AuthDeleteReports(w: World)
    ensures var r := CmdAuth(DeleteKey, w);
            && r.stderr == [Line(if w.store.file.Some? then "API key deleted" else "No stored API key found")]
            && r.store.file.None?
            && CmdAuth(DeleteKey, w.(store := r.store)) == Run(0, [], [Line("No stored API key found")], r.store, None)
  {
  }

  // ---------------------------------------------------------------------
  // optimize

  /** Where the text to optimize comes from, or why there is none. */
  datatype InputResult = GotText(text: string) | InputFailed(message: string) | InputCrashed(exception: string)

  /** `--file` is given and truthy (non-empty). */
  predicate FileGiven(a: Args) {
    a.file.Some? && a.file.value != ""
  }

  /** The input selection of `cmd_optimize`: the prompt words joined by
      single spaces if there are any; else the file if `--file` is given;
      else stdin if it is not a terminal; else an error. */
  function ReadInput(a: Args, w: World): (r: InputResult)
    ensures r.GotText? <==>
      || a.prompt != []
      || (FileGiven(a) && a.file.value in w.files && w.files[a.file.value].Readable?)
      || (!FileGiven(a) && !w.stdinIsTty)
    ensures r.InputCrashed? <==>
      a.prompt == [] && FileGiven(a) && a.file.value in w.files && w.files[a.file.value].Undecodable?
    ensures r.GotText? && a.prompt == [] && FileGiven(a) ==> r.text == w.files[a.file.value].text
    ensures r.GotText? && a.prompt == [] && !FileGiven(a) ==> r.text == w.stdin
    ensures a.prompt == [] && FileGiven(a) && a.file.value !in w.files ==>
      r == InputFailed("File not found: " + a.file.value)
    ensures a.prompt == [] && FileGiven(a) && a.file.value in w.files && w.files[a.file.value].Unreadable? ==>
      r == InputFailed("Failed to read file: " + w.files[a.file.value].reason)
    ensures a.prompt == [] && !FileGiven(a) && w.stdinIsTty ==> r == InputFailed(NoInputMessage)
  {
    if a.prompt != [] then GotText(Text.Join(" ", a.prompt))
    else if FileGiven(a) then
      var path := a.file.value;
      if path !in w.files then InputFailed("File not found: " + path)
      else match w.files[path]
        case Readable(t) => GotText(t)
        case Unreadable(reason) => InputFailed("Failed to read file: " + reason)
        case Undecodable => InputCrashed("UnicodeDecodeError")
    else if !w.stdinIsTty then GotText(w.stdin)
    else InputFailed(NoInputMessage)
  }

  /** Prompt words win over `--file` and stdin: neither is consulted. */
  lemma PromptWins(a: Args, w1: World, w2: World)
    requires a.prompt != []
    ensures ReadInput(a, w1) == ReadInput(a, w2) == GotText(Text.Join(" ", a.prompt))
  {
  }

  /** Without prompt words `--file` wins over stdin: stdin is not consulted. */
  lemma FileBeatsStdin(a: Args, w: World, stdinIsTty: bool, stdin: string)
    requires a.prompt == [] && FileGiven(a)
    ensures ReadInput(a, w) == ReadInput(a, w.(stdinIsTty := stdinIsTty, stdin := stdin))
  {
  }

  /** Stdin is read only when it is not a terminal; on a terminal, with no
      other source, the command fails whatever stdin holds. */
  lemma StdinOnlyWhenNotTty(a: Args, w: World, stdin: string)
    requires a.prompt == [] && !FileGiven(a) && w.stdinIsTty
    ensures ReadInput(a, w) == ReadInput(a, w.(stdin := stdin)) == InputFailed(NoInputMessage)
  {
  }

  /** Prompt words make blank input exactly when each word is blank, so
      `tokenoptimizer "" " "` is rejected as empty input. */
  lemma BlankPromptIff(a: Args, w: World)
    requires a.prompt != []
    ensures Text.Strip(ReadInput(a, w).text) == "" <==> forall k | 0 <= k < |a.prompt| :: Text.AllSpace(a.prompt[k])
  {
    Text.JoinAllSpaceIff(" ", a.prompt);
    Text.StripEmptyIff(Text.Join(" ", a.prompt));
  }

  /** The argparse group: at most one of `-a`, `-l`, `-m`, `-A` is given. */
  predicate ArgparseAccepts(a: Args) {
    (if a.aggressiveness.Some? then 1 else 0) + (if a.light then 1 else 0)
      + (if a.moderate then 1 else 0) + (if a.aggressive then 1 else 0) <= 1
  }

  /** The aggressiveness of `cmd_optimize`: the `-a` value (default 0.5),
      replaced by the first preset flag set, checked light, moderate,
      aggressive. A preset always passes the client's range check. */
  function ResolveAggressiveness(a: Args): (v: real)
    ensures a.light || a.moderate || a.aggressive ==> v in Presets.Values && Client.AggressivenessInRange(v)
    ensures !(a.light || a.moderate || a.aggressive) ==> v == a.aggressiveness.GetOr(DefaultAggressiveness)
  {
    if a.light then Presets["light"]
    else if a.moderate then Presets["moderate"]
    else if a.aggressive then Presets["aggressive"]
    else a.aggressiveness.GetOr(DefaultAggressiveness)
  }

  /** Under the argparse group the one option given decides, so the code's
      preset-first order never overrides an explicit `-a`. */
  lemma AggressivenessUnderArgparse(a: Args)
    requires ArgparseAccepts(a)
    ensures a.aggressiveness.Some? ==> ResolveAggressiveness(a) == a.aggressiveness.value
    ensures a.light ==> ResolveAggressiveness(a) == 0.2
    ensures a.moderate ==> ResolveAggressiveness(a) == 0.5
    ensures a.aggressive ==> ResolveAggressiveness(a) == 0.8
    ensures a == a.(aggressiveness := None, light := false, moderate := false, aggressive := false) ==>
      ResolveAggressiveness(a) == 0.5
  {
  }

  /** The five lines `--stats-only` prints to stdout. */
  function StatsLines(r: Client.CompressionResult): seq<Write> {
    [ Line("Original tokens: " + Text.IntToString(r.originalInputTokens)),
      Line("Output tokens: " + Text.IntToString(r.outputTokens)),
      Line("Tokens saved: " + Text.IntToString(r.TokensSaved())),
      Fixed("Compression ratio: ", r.CompressionRatio(), 1, "%"),
      Fixed("Compression time: ", r.compressionTime, 2, "s") ]
  }

  /** `print_stats(result, quiet)`: one summary line on stderr unless quiet. */
  function PrintStats(r: Client.CompressionResult, quiet: bool): (err: seq<Write>)
    ensures |err| <= 1
    ensures err == [] <==> quiet
  {
    if quiet then [] else [Summary(r)]
  }

  /** What a successful run writes. */
  datatype Streams = Streams(stdout: seq<Write>, stderr: seq<Write>)

  /** The output step of `cmd_optimize`: stats-only wins over quiet and
      prints only the five statistics lines; otherwise the optimized text goes
      to stdout and the summary to stderr unless quiet. */
  function RenderResult(r: Client.CompressionResult, a: Args): (s: Streams)
    ensures a.statsOnly ==> s.stdout == StatsLines(r) && |s.stdout| == 5 && s.stderr == []
    ensures !a.statsOnly ==> s.stdout == [Line(r.output)]
    ensures !a.statsOnly ==> (s.stderr == [] <==> a.quiet)
    ensures !a.statsOnly && !a.quiet ==> s.stderr == [Summary(r)]
  {
    if a.statsOnly then Streams(StatsLines(r), [])
    else Streams([Line(r.output)], PrintStats(r, a.quiet))
  }

  /** Stats-only output does not depend on the optimized text or on `-q`. */
  lemma StatsOnlyIgnoresTextAndQuiet(r: Client.CompressionResult, a: Args, text: string, quiet: bool)
    requires a.statsOnly
    ensures RenderResult(r, a) == RenderResult(r.(output := text), a.(quiet := quiet))
  {
  }

  /** Quiet output is the optimized text alone: no statistics anywhere. */
  lemma QuietIsTextOnly(r: Client.CompressionResult, a: Args)
    requires a.quiet && !a.statsOnly
    ensures RenderResult(r, a) == Streams([Line(r.output)], [])
  {
  }

  /** The request an optimize run may send: the resolved key, the chosen
      input text and the resolved aggressiveness, with the command's token
      limits and timeout and the default model. */
  predicate RequestMatches(q: Client.Request, key: string, text: string, a: Args) {
    && q.url == Client.ApiUrl
    && q.headers == Client.Headers(key)
    && "Authorization" in q.headers
    && q.headers["Authorization"] == "Bearer " + key
    && q.payload == Client.Payload(Client.DefaultModel, text,
                                   Client.Settings(ResolveAggressiveness(a), a.maxTokens, a.minTokens))
    && q.timeout == a.timeout
  }

  /** `cmd_optimize(args)`: load the key, pick and check the input, resolve
      the aggressiveness, call `compress` once, then write the result or
      report the failure through `error`. It never changes the store, and a
      request goes out only with a non-empty key and non-blank input. */
  function CmdOptimize(a: Args, w: World, reply: Client.Transport): (r: Run)
    ensures r.store == w.store
    ensures ExitDiscipline(r)
    ensures r.code == 0 ==> r.sent.Some?
    ensures r.sent.Some? ==>
      var k := Config.LoadApiKey(w.env, w.store);
      var input := ReadInput(a, w);
      && UsableKey(k)
      && input.GotText? && !Text.AllSpace(input.text)
      && Client.AggressivenessInRange(ResolveAggressiveness(a))
      && RequestMatches(r.sent.value, k.key, input.text, a)
  {
    var key := Config.LoadApiKey(w.env, w.store);
    if key.LoadCrashed? then Crash(key.exception, [], w.store, None)
    else if !UsableKey(key) then Error(NoKeyMessage, [], w.store, None)
    else
      match ReadInput(a, w)
      case InputFailed(m) => Error(m, [], w.store, None)
      case InputCrashed(e) => Crash(e, [], w.store, None)
      case GotText(text) =>
        if Text.Strip(text) == "" then Error(EmptyInputMessage, [], w.store, None)
        else
          Text.StripEmptyIff(text);
          var x := Client.Compress(Client.ClientConfig(key.key, a.timeout), text, ResolveAggressiveness(a),
                                   a.maxTokens, a.minTokens, Client.DefaultModel, reply);
          match x.outcome
          case Ok(result) =>
            var s := RenderResult(result, a);
            Run(0, s.stdout, s.stderr, w.store, x.sent)
          case AuthErr(m) => Error("Authentication failed: " + m, [], w.store, x.sent)
          case ApiErr(m) => Error(m, [], w.store, x.sent)
          case ValueErr(m) => Error(m, [], w.store, x.sent)
          case Uncaught(e) => Crash(e, [], w.store, x.sent)
  }

  /** A missing or empty key stops the run first: the same single error line
      whatever the input sources, the output flags or the API would answer. */
  lemma NoKeyStopsFirst(a: Args, w: World, reply: Client.Transport)
    requires Config.LoadApiKey(w.env, w.store) in {Config.NoKey, Config.Key("")}
    ensures CmdOptimize(a, w, reply) == Run(1, [], [ErrorLine(NoKeyMessage)], w.store, None)
  {
  }

  /** A config file that cannot be read stops both commands that load the key
      with a traceback, before any input is read or request made. */
  lemma UnloadableConfigCrashes(a: Args, w: World, reply: Client.Transport, exception: string)
    requires !Config.EnvKeySet(w.env) && w.store.file == Some(Config.Unloadable(exception))
    ensures CmdOptimize(a, w, reply) == Run(1, [], [Traceback(exception)], w.store, None)
    ensures CmdAuth(ShowKey, w) == Run(1, [], [Traceback(exception)], w.store, None)
  {
  }

  /** A whitespace-only environment value is truthy, so it hides a stored key
      and the optimize command reports that no key is configured. */
  lemma BlankEnvKeyHidesStoredKey(a: Args, w: World, reply: Client.Transport)
    requires Config.EnvVarName in w.env && w.env[Config.EnvVarName] != ""
    requires Text.AllSpace(w.env[Config.EnvVarName])
    ensures CmdOptimize(a, w, reply) == Run(1, [], [ErrorLine(NoKeyMessage)], w.store, None)
  {
    Config.BlankEnvShadowsFile(w.env, w.store);
  }

  /** With a key, an input that cannot be found is reported as one
      `error:` line with exit 1, and no request is made: a missing file, a
      file that cannot be read, or a terminal stdin with nothing else given. */
  lemma InputFailureReported(a: Args, w: World, reply: Client.Transport, m: string)
    requires UsableKey(Config.LoadApiKey(w.env, w.store))
    requires ReadInput(a, w) == InputFailed(m)
    ensures CmdOptimize(a, w, reply) == Run(1, [], [ErrorLine(m)], w.store, None)
  {
  }

  /** Whitespace-only input is rejected before `compress` is called. */
  lemma BlankInputRejected(a: Args, w: World, reply: Client.Transport, key: string, text: string)
    requires Config.LoadApiKey(w.env, w.store) == Config.Key(key) && key != ""
    requires ReadInput(a, w) == GotText(text) && Text.AllSpace(text)
    ensures CmdOptimize(a, w, reply) == Run(1, [], [ErrorLine(EmptyInputMessage)], w.store, None)
  {
    Text.StripEmptyIff(text);
  }

  /** With a key and usable input, the outcome of the one `compress` call
      decides the run: a result is written per the output flags with exit 0;
      each raised error becomes one `error:` line and an exception `compress`
      lets escape a traceback, both with exit 1 and nothing on stdout. */
  lemma OutcomeDecidesRun(a: Args, w: World, reply: Client.Transport)
    requires UsableKey(Config.LoadApiKey(w.env, w.store))
    requires ReadInput(a, w).GotText? && !Text.AllSpace(ReadInput(a, w).text)
    ensures var key := Config.LoadApiKey(w.env, w.store).key;
            var text := ReadInput(a, w).text;
            var x := Client.Compress(Client.ClientConfig(key, a.timeout), text, ResolveAggressiveness(a),
                                     a.maxTokens, a.minTokens, Client.DefaultModel, reply);
            var r := CmdOptimize(a, w, reply);
            && r.sent == x.sent
            && (x.outcome.Ok? ==> r.code == 0 && Streams(r.stdout, r.stderr) == RenderResult(x.outcome.result, a))
            && (!x.outcome.Ok? ==> r.code == 1 && r.stdout == [])
            && (x.outcome.AuthErr? ==> r.stderr == [ErrorLine("Authentication failed: " + x.outcome.msg)])
            && (x.outcome.ApiErr? ==> r.stderr == [ErrorLine(x.outcome.msg)])
            && (x.outcome.ValueErr? ==> r.stderr == [ErrorLine(x.outcome.msg)])
            && (x.outcome.Uncaught? ==> r.stderr == [Traceback(x.outcome.exception)])
            && (!Client.AggressivenessInRange(ResolveAggressiveness(a)) ==>
                  r.sent.None? && r.stderr == [ErrorLine(Client.AggressivenessMessage)])
  {
    Text.StripEmptyIff(ReadInput(a, w).text);
  }

  /** The API answer of the worked run: "Hi world" at 2 tokens in and out. */
  const HelloReply := Client.Responded(Client.Response(200, true, "", Some(Client.JObj(map[
    "output" := Client.JStr("Hi world"), "output_tokens" := Client.JInt(2),
    "original_input_tokens" := Client.JInt(2), "compression_time" := Client.JFloat(0.25)]))))

  /** The command line of the worked run: `tokenoptimizer Hello world`. */
  const HelloArgs := Args(["Hello", "world"], None, None, false, false, false, None, None, false, false, 60)

  /** A worked run: the prompt words "Hello" "world" with default flags, and
      the answer `HelloReply`. The request carries the joined text at
      aggressiveness 0.5; stdout is the compressed text; stderr is the
      summary of a result with a 0% reduction. */
  lemma HelloWorldRun(w: World, key: string)
    requires Config.LoadApiKey(w.env, w.store) == Config.Key(key) && key != ""
    ensures var result := Client.CompressionResult("Hi world", 2, 2, 0.25);
            var r := CmdOptimize(HelloArgs, w, HelloReply);
            && r.sent.Some? && r.sent.value.payload.input == "Hello world"
            && r.sent.value.payload.settings.aggressiveness == 0.5
            && r.code == 0 && r.stdout == [Line("Hi world")] && r.stderr == [Summary(result)]
            && result.CompressionRatio() == 0.0
  {
    var result := Client.CompressionResult("Hi world", 2, 2, 0.25);
    HelloReplyParses();
    HelloInputIsRead(w);
    OutcomeDecidesRun(HelloArgs, w, HelloReply);
    assert RenderResult(result, HelloArgs) == Streams([Line("Hi world")], [Summary(result)]);
  }

  /** The worked run's answer is a well-formed success body. */
  lemma HelloReplyParses()
    ensures Client.Classify(HelloReply) == Client.Ok(Client.CompressionResult("Hi world", 2, 2, 0.25))
  {
    assert Client.WellFormedBody(HelloReply.response.json.value);
  }

  /** The worked run's input is the two words joined, which is not blank, and
      its aggressiveness is the default. */
  lemma HelloInputIsRead(w: World)
    ensures ReadInput(HelloArgs, w) == GotText("Hello world")
    ensures !Text.AllSpace("Hello world")
    ensures ResolveAggressiveness(HelloArgs) == 0.5
  {
    assert Text.Join(" ", HelloArgs.prompt) == "Hello world";
    assert !Text.IsSpace("Hello world"[0]);
  }

  // ---------------------------------------------------------------------
  // main

  /** `main` hands the command line to the auth parser exactly when its
      first argument after the program name is `auth`. */
  predicate IsAuthInvocation(argv: seq<string>) {
    |argv| > 1 && argv[1] == "auth"
  }

  /** `main()`. argparse is not modelled: `parseAuth` and `parseOptimize`
      stand for the two parsers applied to the arguments they receive
      (`sys.argv[2:]` and `sys.argv[1:]`). */
  function Main(argv: seq<string>, parseAuth: seq<string> -> Option<AuthAction>,
                parseOptimize: seq<string> -> Args, w: World, reply: Client.Transport): (r: Run)
    ensures ExitDiscipline(r)
    ensures IsAuthInvocation(argv) ==> r.sent.None?
    ensures IsAuthInvocation(argv) && parseAuth(argv[2..]).None? ==> r.code == 1 && r.stdout == [Help] && r.store == w.store
    ensures IsAuthInvocation(argv) && parseAuth(argv[2..]).Some? ==> r == CmdAuth(parseAuth(argv[2..]).value, w)
    ensures !IsAuthInvocation(argv) ==> r == CmdOptimize(parseOptimize(if argv == [] then [] else argv[1..]), w, reply)
  {
    if IsAuthInvocation(argv) then
      match parseAuth(argv[2..])
      case None => Run(1, [Help], [], w.store, None)
      case Some(action) => CmdAuth(action, w)
    else
      CmdOptimize(parseOptimize(if argv == [] then [] else argv[1..]), w, reply)
  }
}

=== FILE: client.dfy ===
/**
  The API client of `tokenoptimizer/client.py`: the statistics derived from a
  compression result, and `TokenOptimizerClient.compress`, which validates
  the aggressiveness, builds one HTTP request and classifies what comes back.

  The network is not modelled. `Compress` receives, as the parameter `reply`,
  what the transport would answer to the request it builds. It returns the
  request it sent, if any, with the outcome.
 */
module Client {
  import opened Wrappers
  import Text

  const ApiUrl := "https://api.thetokencompany.com/v1/compress"
  const DefaultModel := "bear-1"

  /** `CompressionResult`. The compression time is a number the tool only
      prints. */
  datatype CompressionResult = CompressionResult(
    output: string,
    outputTokens: int,
    originalInputTokens: int,
    compressionTime: real)
  {
    /** The `tokens_saved` property. */
    function TokensSaved(): int {
      originalInputTokens - outputTokens
    }

    /** The `compression_ratio` property, as an exact real: the percentage
        of the input tokens that compression removed, and 0 for empty input. */
    function CompressionRatio(): (ratio: real)
      ensures originalInputTokens == 0 ==> ratio == 0.0
      ensures originalInputTokens != 0 ==> ratio * (originalInputTokens as real) == 100.0 * (TokensSaved() as real)
    {
      if originalInputTokens == 0 then 0.0
      else
        var o := originalInputTokens as real;
        var q := (outputTokens as real) / o;
        assert q * o == outputTokens as real;
        assert (1.0 - q) * 100.0 * o == 100.0 * (o - q * o);
        (1.0 - q) * 100.0
    }
  }

  /** The saved tokens and the output tokens add up to the input tokens. */
  lemma TokensSavedBalance(r: CompressionResult)
    ensures r.TokensSaved() + r.outputTokens == r.originalInputTokens
    ensures r.TokensSaved() >= 0 <==> r.outputTokens <= r.originalInputTokens
  {
  }

  /** The ratio is the saved tokens as a percentage of the input tokens,
      the percentage `compression_ratio`'s docstring names. */
  lemma RatioMeasuresSaved(r: CompressionResult)
    requires r.originalInputTokens != 0
    ensures r.CompressionRatio() == 100.0 * (r.TokensSaved() as real) / (r.originalInputTokens as real)
  {
    var o := r.originalInputTokens as real;
    var x := r.CompressionRatio();
    assert x * o == 100.0 * (r.TokensSaved() as real);
    assert x == (x * o) / o;
  }

  /** The docstring's promise: the ratio lies in [0, 100] whenever the output
      is no larger than the input. Nothing saved means 0, everything saved 100. */
  lemma RatioBounds(r: CompressionResult)
    requires 0 <= r.outputTokens <= r.originalInputTokens
    ensures 0.0 <= r.CompressionRatio() <= 100.0
    ensures r.CompressionRatio() == 0.0 <==> r.TokensSaved() == 0 || r.originalInputTokens == 0
    ensures r.CompressionRatio() == 100.0 <==> r.outputTokens == 0 && r.originalInputTokens != 0
  {
    if r.originalInputTokens != 0 {
      RatioMeasuresSaved(r);
      var o := r.originalInputTokens as real;
      var s := r.TokensSaved() as real;
      assert 0.0 <= s <= o;
      assert r.CompressionRatio() * o == 100.0 * s;
    }
  }

  /** A JSON value as `response.json()` would return it. */
  datatype Json =
    | JNull
    | JBool(b: bool)
    | JInt(i: int)
    | JFloat(x: real)
    | JStr(s: string)
    | JArr(items: seq<Json>)
    | JObj(fields: map<string, Json>)

  /** Python's `str()` of a JSON value, as an f-string prints it. Exact for
      `None`, booleans, integers and strings; floats, lists and dicts are
      shown by a fixed marker instead of Python's `repr`. */
  function Show(j: Json): string {
    match j
    case JNull => "None"
    case JBool(b) => if b then "True" else "False"
    case JInt(i) => Text.IntToString(i)
    case JStr(s) => s
    case JFloat(_) => "<float>"
    case JArr(_) => "<list>"
    case JObj(_) => "<dict>"
  }

  /** An HTTP response: status code, the `ok` flag, the raw body text, and
      the body parsed as JSON (`None` when `response.json()` raises). */
  datatype Response = Response(status: int, ok: bool, text: string, json: Option<Json>)

  /** What the transport answers to one request. */
  datatype Transport =
    | TimedOut                     // requests.exceptions.Timeout
    | ConnectionFailed             // requests.exceptions.ConnectionError
    | RequestFailed(reason: string)  // any other RequestException, by its str()
    | ValueRejected(message: string) // a ValueError that is no RequestException, by its str()
    | Responded(response: Response)

  /** The `compression_settings` object of the payload. */
  datatype Settings = Settings(aggressiveness: real, maxOutputTokens: Option<int>, minOutputTokens: Option<int>)

  /** The JSON payload: `model`, `input` and `compression_settings`. */
  datatype Payload = Payload(model: string, input: string, settings: Settings)

  /** One POST to the API: URL, headers, JSON payload and timeout in seconds. */
  datatype Request = Request(url: string, headers: map<string, string>, payload: Payload, timeout: int)

  /** `TokenOptimizerClient(api_key, timeout)`. */
  datatype ClientConfig = ClientConfig(apiKey: string, timeout: int)

  /** How `compress` ends: a result, or one of the exceptions it raises. An
      exception the method does not raise itself (`KeyError`, `TypeError`
      while reading the success body) is `Uncaught`, named by its class. */
  datatype Outcome =
    | Ok(result: CompressionResult)
    | AuthErr(msg: string)        // AuthenticationError
    | ApiErr(msg: string)         // APIError
    | ValueErr(msg: string)       // ValueError
    | Uncaught(exception: string)

  /** The request `compress` sent (at most one) and how it ended. */
  datatype Exchange = Exchange(sent: Option<Request>, outcome: Outcome)

  const AggressivenessMessage := "Aggressiveness must be between 0.0 and 1.0"
  const TimeoutMessage := "Request timed out"
  const ConnectMessage := "Failed to connect to API"
  const InvalidKeyMessage := "Invalid API key"
  const ForbiddenMessage := "API key does not have access to this resource"
  const InvalidJsonMessage := "Invalid JSON response from API"

  /** The check `0.0 <= aggressiveness <= 1.0`. */
  predicate AggressivenessInRange(a: real) {
    0.0 <= a <= 1.0
  }

  /** `"Request failed: " + str(e)` for any other request exception. */
  function RequestFailedMessage(reason: string): string {
    "Request failed: " + reason
  }

  /** `"API error (<status>): <detail>"` for a failed status. */
  function StatusMessage(status: int, detail: string): string {
    "API error (" + Text.IntToString(status) + "): " + detail
  }

  /** The headers: JSON content type and the bearer token. */
  function Headers(apiKey: string): (h: map<string, string>)
    ensures h.Keys == {"Content-Type", "Authorization"}
    ensures h["Content-Type"] == "application/json"
    ensures |h["Authorization"]| == |"Bearer "| + |apiKey|
    ensures h["Authorization"][..7] == "Bearer " && h["Authorization"][7..] == apiKey
  {
    map["Content-Type" := "application/json", "Authorization" := "Bearer " + apiKey]
  }

  /** The request `compress` posts: the caller's values go into the payload
      unchanged, the key into the headers, the client's timeout alongside. */
  function BuildRequest(c: ClientConfig, text: string, aggressiveness: real,
                        maxOutputTokens: Option<int>, minOutputTokens: Option<int>,
                        model: string): (q: Request)
    ensures q.url == ApiUrl && q.timeout == c.timeout
    ensures q.headers == Headers(c.apiKey)
    ensures q.payload.model == model && q.payload.input == text
    ensures q.payload.settings == Settings(aggressiveness, maxOutputTokens, minOutputTokens)
  {
    Request(ApiUrl, Headers(c.apiKey), Payload(model, text, Settings(aggressiveness, maxOutputTokens, minOutputTokens)), c.timeout)
  }

  /** The error body carries `{"error": {"message": ...}}`. */
  predicate HasErrorMessage(resp: Response) {
    && resp.json.Some? && resp.json.value.JObj?
    && "error" in resp.json.value.fields
    && resp.json.value.fields["error"].JObj?
    && "message" in resp.json.value.fields["error"].fields
  }

  /** The detail of an error status: `error.message` from the JSON body when
      the body is an object whose `error` (default `{}`) is an object holding
      a `message`; otherwise, including every case where `.get` would raise
      on a non-object, the raw body text. */
  function ErrorDetail(resp: Response): (d: string)
    ensures HasErrorMessage(resp) ==> d == Show(resp.json.value.fields["error"].fields["message"])
    ensures !HasErrorMessage(resp) ==> d == resp.text
  {
    match resp.json
    case Some(JObj(body)) =>
      var err := if "error" in body then body["error"] else JObj(map[]);
      (match err
       case JObj(e) => if "message" in e then Show(e["message"]) else resp.text
       case _ => resp.text)
    case _ => resp.text
  }

  /** A JSON integer field of a success body. */
  predicate IsInt(j: Json) { j.JInt? }

  /** A JSON number field of a success body. */
  predicate IsNumber(j: Json) { j.JInt? || j.JFloat? }

  function NumberValue(j: Json): real
    requires IsNumber(j)
  {
    if j.JInt? then j.i as real else j.x
  }

  /** The keys the success branch indexes, in the order it indexes them. */
  const ResultKeys := ["output", "output_tokens", "original_input_tokens", "compression_time"]

  /** A success body: an object with all four keys, each of the expected type. */
  predicate WellFormedBody(j: Json) {
    && j.JObj?
    && (forall k | k in ResultKeys :: k in j.fields)
    && j.fields["output"].JStr?
    && IsInt(j.fields["output_tokens"])
    && IsInt(j.fields["original_input_tokens"])
    && IsNumber(j.fields["compression_time"])
  }

  /** The `CompressionResult` read from a success body. */
  function ReadResult(body: Json): (r: Outcome)
    ensures r.Ok? <==> WellFormedBody(body)
    ensures r.Ok? ==>
      && r.result.output == body.fields["output"].s
      && r.result.outputTokens == body.fields["output_tokens"].i
      && r.result.originalInputTokens == body.fields["original_input_tokens"].i
      && r.result.compressionTime == NumberValue(body.fields["compression_time"])
    ensures !r.Ok? ==> r.Uncaught?
  {
    match body
    case JObj(f) =>
      if exists k | k in ResultKeys :: k !in f then Uncaught("KeyError")
      else if WellFormedBody(body) then
        Ok(CompressionResult(f["output"].s, f["output_tokens"].i, f["original_input_tokens"].i,
                             NumberValue(f["compression_time"])))
      else Uncaught("TypeError")
    case _ => Uncaught("TypeError")
  }

  /** The classification of what the transport answered: transport failures,
      then 401, then 403, then any other not-ok status, then the body. A
      `ValueError` from `requests.post` itself (a timeout urllib3 refuses, a
      header that is not Latin-1) is not caught and leaves `compress` as is. */
  function Classify(reply: Transport): (r: Outcome)
    ensures r.AuthErr? <==> reply.Responded? && reply.response.status in {401, 403}
    ensures r.ValueErr? <==> reply.ValueRejected?
    ensures reply.TimedOut? ==> r == ApiErr(TimeoutMessage)
    ensures reply.ConnectionFailed? ==> r == ApiErr(ConnectMessage)
    ensures reply.RequestFailed? ==> r == ApiErr(RequestFailedMessage(reply.reason))
    ensures reply.ValueRejected? ==> r == ValueErr(reply.message)
    ensures reply.Responded? && reply.response.status == 401 ==> r == AuthErr(InvalidKeyMessage)
    ensures reply.Responded? && reply.response.status == 403 ==> r == AuthErr(ForbiddenMessage)
    ensures reply.Responded? && reply.response.status !in {401, 403} && !reply.response.ok ==>
      r == ApiErr(StatusMessage(reply.response.status, ErrorDetail(reply.response)))
    ensures reply.Responded? && reply.response.status !in {401, 403} && reply.response.ok ==>
      r == (if reply.response.json.None? then ApiErr(InvalidJsonMessage) else ReadResult(reply.response.json.value))
    ensures r.Ok? ==> reply.Responded? && reply.response.ok && reply.response.json.Some?
  {
    match reply
    case TimedOut => ApiErr(TimeoutMessage)
    case ConnectionFailed => ApiErr(ConnectMessage)
    case RequestFailed(reason) => ApiErr(RequestFailedMessage(reason))
    case ValueRejected(message) => ValueErr(message)
    case Responded(resp) =>
      if resp.status == 401 then AuthErr(InvalidKeyMessage)
      else if resp.status == 403 then AuthErr(ForbiddenMessage)
      else if !resp.ok then ApiErr(StatusMessage(resp.status, ErrorDetail(resp)))
      else if resp.json.None? then ApiErr(InvalidJsonMessage)
      else ReadResult(resp.json.value)
  }

  /** `TokenOptimizerClient.compress`: an out-of-range aggressiveness raises
      `ValueError` before any request; otherwise `requests.post` is called
      exactly once and its answer classified. There is no retry. */
  function Compress(c: ClientConfig, text: string, aggressiveness: real,
                    maxOutputTokens: Option<int>, minOutputTokens: Option<int>,
                    model: string, reply: Transport): (x: Exchange)
    ensures x.sent.None? <==> !AggressivenessInRange(aggressiveness)
    ensures x.sent.None? ==> x.outcome == ValueErr(AggressivenessMessage)
    ensures x.sent.Some? ==>
      x.sent.value == BuildRequest(c, text, aggressiveness, maxOutputTokens, minOutputTokens, model)
    ensures x.sent.Some? ==>
      && x.sent.value.url == ApiUrl
      && "Content-Type" in x.sent.value.headers
      && x.sent.value.headers["Content-Type"] == "application/json"
      && "Authorization" in x.sent.value.headers
      && x.sent.value.headers["Authorization"] == "Bearer " + c.apiKey
      && x.sent.value.payload == Payload(model, text, Settings(aggressiveness, maxOutputTokens, minOutputTokens))
      && x.sent.value.timeout == c.timeout
      && x.outcome == Classify(reply)
  {
    if !AggressivenessInRange(aggressiveness) then Exchange(None, ValueErr(AggressivenessMessage))
    else Exchange(Some(BuildRequest(c, text, aggressiveness, maxOutputTokens, minOutputTokens, model)), Classify(reply))
  }

  /** The three transport failures give three different messages, none of
      which can be mistaken for a status error. */
  lemma TransportMessagesDistinct(reason: string, status: int, detail: string)
    ensures TimeoutMessage != ConnectMessage
    ensures RequestFailedMessage(reason) != TimeoutMessage
    ensures RequestFailedMessage(reason) != ConnectMessage
    ensures StatusMessage(status, detail) !in {TimeoutMessage, ConnectMessage, RequestFailedMessage(reason)}
  {
    assert TimeoutMessage[8] != RequestFailedMessage(reason)[8];
    assert ConnectMessage[0] != RequestFailedMessage(reason)[0];
    assert StatusMessage(status, detail)[0] != TimeoutMessage[0];
    assert StatusMessage(status, detail)[0] != ConnectMessage[0];
    assert StatusMessage(status, detail)[0] != RequestFailedMessage(reason)[0];
  }

  /** A transport failure is recognisable from the outcome alone: no other
      answer of the transport, a response included, is classified the same. */
  lemma ClassifyIdentifiesTransportFailure(t: Transport, u: Transport)
    requires t.TimedOut? || t.ConnectionFailed? || t.RequestFailed?
    requires Classify(t) == Classify(u)
    ensures u == t
  {
    var tReason := if t.RequestFailed? then t.reason else "";
    var uReason := if u.RequestFailed? then u.reason else "";
    var status := if u.Responded? then u.response.status else 0;
    var detail := if u.Responded? then ErrorDetail(u.response) else "";
    TransportMessagesDistinct(tReason, status, detail);
    TransportMessagesDistinct(uReason, status, detail);
    assert InvalidJsonMessage[0] != Classify(t).msg[0];
    if t.RequestFailed? && u.RequestFailed? {
      var p := "Request failed: ";
      assert u.reason == RequestFailedMessage(u.reason)[|p|..];
      assert t.reason == RequestFailedMessage(t.reason)[|p|..];
    }
  }

  /** Text with no ')' before the delimiter is recovered from what follows. */
  lemma SplitAtParen(x: string, y: string, u: string, v: string)
    requires forall i | 0 <= i < |x| :: x[i] != ')'
    requires forall i | 0 <= i < |y| :: y[i] != ')'
    requires x + ")" + u == y + ")" + v
    ensures x == y
  {
    var s := x + ")" + u;
    assert s[|x|] == ')';
    assert s == y + ")" + v;
    assert s[|y|] == ')';
    assert |x| == |y|;
    assert x == s[..|x|];
    assert y == s[..|y|];
  }

  /** A status error's message names its status: two status messages that
      are equal come from the same status code. */
  lemma StatusMessageNamesStatus(s1: int, d1: string, s2: int, d2: string)
    requires StatusMessage(s1, d1) == StatusMessage(s2, d2)
    ensures s1 == s2
  {
    var p := "API error (";
    var x := Text.IntToString(s1);
    var y := Text.IntToString(s2);
    assert StatusMessage(s1, d1) == p + (x + ")" + (": " + d1));
    assert StatusMessage(s2, d2) == p + (y + ")" + (": " + d2));
    assert x + ")" + (": " + d1) == StatusMessage(s1, d1)[|p|..];
    assert y + ")" + (": " + d2) == StatusMessage(s2, d2)[|p|..];
    NoParenInNumber(s1);
    NoParenInNumber(s2);
    SplitAtParen(x, y, ": " + d1, ": " + d2);
    Text.IntToStringInjective(s1, s2);
  }

  /** Printed integers hold only digits and a sign. */
  lemma NoParenInNumber(i: int)
    ensures forall k | 0 <= k < |Text.IntToString(i)| :: Text.IntToString(i)[k] != ')'
  {
    if i < 0 {
      var n: nat := -i;
      assert forall k | 1 <= k < |Text.IntToString(i)| :: Text.IntToString(i)[k] == Text.NatToString(n)[k - 1];
    }
  }
}

=== FILE: config.dfy ===
/**
  The credential store of `tokenoptimizer/config.py`.

  The process environment and the two filesystem entries the module touches
  (the directory `~/.config/tokenoptimizer` and the file `config` inside it)
  are explicit values here, so every operation is a pure function of them.
 */
module Config {
  import opened Wrappers
  import Text

  /** The environment variable that overrides the stored key. */
  const EnvVarName := "TOKENOPTIMIZER_API_KEY"

  /** Permission bits 0o600 (owner read and write only) set after every save. */
  const OwnerReadWrite: nat := 0x180

  /** A path below the user's home directory, as a list of components. */
  datatype Path = Path(home: string, parts: seq<string>)

  /** The text `str(path)` prints for a path below home. */
  function PathText(p: Path): string {
    p.home + "/" + Text.Join("/", p.parts)
  }

  /** `CONFIG_DIR`: `~/.config/tokenoptimizer`. */
  function ConfigDir(home: string): Path {
    Path(home, [".config", "tokenoptimizer"])
  }

  /** `get_config_path()`: `~/.config/tokenoptimizer/config`. It reads
      nothing but the home directory and changes nothing. */
  function GetConfigPath(home: string): (p: Path)
    ensures p.home == home
    ensures |p.parts| == |ConfigDir(home).parts| + 1
    ensures p.parts[..|p.parts| - 1] == ConfigDir(home).parts
    ensures p.parts[|p.parts| - 1] == "config"
  {
    Path(home, [".config", "tokenoptimizer", "config"])
  }

  /** The config file as `read_text()` finds it: decodable text with its
      permission bits, or a file whose read raises (`PermissionError`,
      `IsADirectoryError`, `UnicodeDecodeError`, ...), named by that exception. */
  datatype StoredFile = TextFile(contents: string, mode: nat) | Unloadable(exception: string)

  /** The filesystem state the module sees: whether the config directory
      exists, and the config file if it exists. */
  datatype Store = Store(dirExists: bool, file: Option<StoredFile>)

  /** The environment supplies a key: `os.environ.get(ENV_VAR_NAME)` is
      truthy, i.e. present and not the empty string. */
  predicate EnvKeySet(env: map<string, string>) {
    EnvVarName in env && env[EnvVarName] != ""
  }

  /** `save_api_key(api_key)`: create the directory (with parents, no error if
      present), write the stripped key, then restrict the file to its owner.
      The write is a plain overwrite, not an atomic replace, and on POSIX it
      writes line feeds and carriage returns as they are. */
  function SaveApiKey(s: Store, apiKey: string): (s': Store)
    ensures s'.dirExists
    ensures s'.file.Some? && s'.file.value.TextFile?
    ensures s'.file.value.mode == OwnerReadWrite
    ensures Text.Trimmed(s'.file.value.contents)
    ensures Text.AllSpace(apiKey) <==> s'.file.value.contents == ""
    ensures s'.file.value.contents == Text.Strip(apiKey)
  {
    Text.StripEmptyIff(apiKey);
    Store(true, Some(TextFile(Text.Strip(apiKey), OwnerReadWrite)))
  }

  /** How `load_api_key()` ends: with a key, with `None`, or with the
      exception reading the file raised. */
  datatype Loaded = Key(key: string) | NoKey | LoadCrashed(exception: string)

  /** `load_api_key()`: the stripped environment value when it is non-empty;
      else, when the file exists, its text read in universal-newlines mode
      and stripped, or the exception the read raises; else `None`. */
  function LoadApiKey(env: map<string, string>, s: Store): (r: Loaded)
    ensures r.Key? ==> Text.Trimmed(r.key)
    ensures r.NoKey? <==> !EnvKeySet(env) && s.file.None?
    ensures r.LoadCrashed? <==> !EnvKeySet(env) && s.file.Some? && s.file.value.Unloadable?
    ensures r.LoadCrashed? ==> r.exception == s.file.value.exception
  {
    if EnvKeySet(env) then Key(Text.Strip(env[EnvVarName]))
    else
      match s.file
      case None => NoKey
      case Some(TextFile(contents, _)) => Key(Text.Strip(Text.UniversalNewlines(contents)))
      case Some(Unloadable(e)) => LoadCrashed(e)
  }

  /** What `delete_api_key()` returns together with the state it leaves. */
  datatype Deletion = Deletion(deleted: bool, after: Store)

  /** `delete_api_key()`: remove the file if it exists and say whether it did;
      the directory is left alone. Removing needs no read access, so an
      unloadable file is removed too. */
  function DeleteApiKey(s: Store): (d: Deletion)
    ensures d.deleted <==> s.file.Some?
    ensures d.after.file.None?
    ensures d.after.dirExists == s.dirExists
  {
    if s.file.Some? then Deletion(true, Store(s.dirExists, None)) else Deletion(false, s)
  }

  /** A non-empty environment value wins, whatever the file holds. */
  lemma EnvOverridesFile(env: map<string, string>, s: Store)
    requires EnvKeySet(env)
    ensures LoadApiKey(env, s) == Key(Text.Strip(env[EnvVarName]))
  {
  }

  /** A whitespace-only environment value is truthy, so it shadows the file
      and loads as the empty key. */
  lemma BlankEnvShadowsFile(env: map<string, string>, s: Store)
    requires EnvVarName in env && env[EnvVarName] != ""
    requires Text.AllSpace(env[EnvVarName])
    ensures LoadApiKey(env, s) == Key("")
  {
    Text.StripEmptyIff(env[EnvVarName]);
  }

  /** With no usable environment value the file decides: its translated and
      stripped text, the exception reading it raises, or `None` when it does
      not exist. An empty environment value counts as unset. */
  lemma FileUsedWithoutEnv(env: map<string, string>, s: Store)
    requires EnvVarName !in env || env[EnvVarName] == ""
    ensures s.file.Some? && s.file.value.TextFile? ==>
      LoadApiKey(env, s) == Key(Text.Strip(Text.UniversalNewlines(s.file.value.contents)))
    ensures s.file.Some? && s.file.value.Unloadable? ==> LoadApiKey(env, s) == LoadCrashed(s.file.value.exception)
    ensures s.file.None? ==> LoadApiKey(env, s) == NoKey
  {
  }

  /** Round trip: after a save, and with no usable environment value, loading
      gives back the saved key stripped, with its carriage returns read back
      as line feeds. A save also makes an unloadable file loadable. */
  lemma SaveThenLoad(env: map<string, string>, s: Store, apiKey: string)
    requires !EnvKeySet(env)
    ensures LoadApiKey(env, SaveApiKey(s, apiKey)) == Key(Text.UniversalNewlines(Text.Strip(apiKey)))
  {
    Text.UniversalNewlinesOfTrimmed(Text.Strip(apiKey));
  }

  /** A key without a carriage return comes back exactly as it was saved,
      stripped. */
  lemma SaveThenLoadPlainKey(env: map<string, string>, s: Store, apiKey: string)
    requires !EnvKeySet(env)
    requires forall i | 0 <= i < |apiKey| :: apiKey[i] != '\r'
    ensures LoadApiKey(env, SaveApiKey(s, apiKey)) == Key(Text.Strip(apiKey))
  {
    SaveThenLoad(env, s, apiKey);
    Text.StripAddsNothing(apiKey, '\r');
    Text.UniversalNewlinesKeepsPlainText(Text.Strip(apiKey));
  }

  /** A key with an inner carriage return does not come back as it was
      saved: `ab\rcd` is written as it is and read back as `ab\ncd`. */
  lemma CarriageReturnKeyLoadsChanged(env: map<string, string>, s: Store)
    requires !EnvKeySet(env)
    ensures SaveApiKey(s, "ab\rcd").file.value.contents == "ab\rcd"
    ensures LoadApiKey(env, SaveApiKey(s, "ab\rcd")) == Key("ab\ncd")
  {
    var k := "ab\rcd";
    assert [] + k + [] == k;
    Text.StripOfPadded([], k, []);
    SaveThenLoad(env, s, k);
    Text.CarriageReturnBecomesNewline();
  }

  /** A whitespace-only key is saved as the empty file. */
  lemma SaveBlankStoresEmpty(s: Store, apiKey: string)
    requires Text.AllSpace(apiKey)
    ensures SaveApiKey(s, apiKey) == Store(true, Some(TextFile("", OwnerReadWrite)))
  {
  }

  /** After a delete, and with no usable environment value, nothing loads. */
  lemma DeleteThenLoad(env: map<string, string>, s: Store)
    requires !EnvKeySet(env)
    ensures LoadApiKey(env, DeleteApiKey(s).after) == NoKey
  {
  }

  /** A second delete reports that nothing was found and changes nothing. */
  lemma DeleteIdempotent(s: Store)
    ensures DeleteApiKey(DeleteApiKey(s).after) == Deletion(false, DeleteApiKey(s).after)
  {
  }
}

=== FILE: text.dfy ===
/**
  The few pieces of Python's string behaviour the command-line tool relies on:
  `str.isspace` / `str.strip`, `" ".join(words)`, `"*" * n`, `str(int)` and
  the newline translation of a file read in text mode. Strings are sequences
  of Unicode scalar values; a Python `str` holding a lone surrogate has no
  counterpart here.
 */
module Text {

  /** Python's `str.isspace()` for a single character: the ASCII blanks, the
      information separators U+001C..U+001F, and the Unicode spaces and line
      or paragraph separators. */
  predicate IsSpace(c: char) {
    || c == ' ' || c == '\t' || c == '\n' || c == '\r'
    || c == '\U{000B}' || c == '\U{000C}'
    || ('\U{001C}' <= c <= '\U{001F}')
    || c == '\U{0085}' || c == '\U{00A0}' || c == '\U{1680}'
    || ('\U{2000}' <= c <= '\U{200A}')
    || c == '\U{2028}' || c == '\U{2029}' || c == '\U{202F}'
    || c == '\U{205F}' || c == '\U{3000}'
  }

  /** Every character of `s` is whitespace (vacuously true of ""). */
  predicate AllSpace(s: string) {
    forall i | 0 <= i < |s| :: IsSpace(s[i])
  }

  /** Neither end of `s` is whitespace: what `str.strip` leaves behind. */
  predicate Trimmed(s: string) {
    s == [] || (!IsSpace(s[0]) && !IsSpace(s[|s| - 1]))
  }

  /** The characters of `s` from index `lo` up to `hi` are all whitespace. */
  predicate SpaceBetween(s: string, lo: int, hi: int) {
    forall k | lo <= k < hi && 0 <= k < |s| :: IsSpace(s[k])
  }

  /** Where the run of whitespace that starts at `i` ends. */
  function SpaceRunFrom(s: string, i: nat): (n: nat)
    requires i <= |s|
    ensures i <= n <= |s|
    ensures SpaceBetween(s, i, n)
    ensures n < |s| ==> !IsSpace(s[n])
    decreases |s| - i
  {
    if i < |s| && IsSpace(s[i]) then SpaceRunFrom(s, i + 1) else i
  }

  /** Where the run of whitespace that ends at `hi` starts, looking no
      further back than `lo`. */
  function SpaceRunBefore(s: string, lo: nat, hi: nat): (m: nat)
    requires lo <= hi <= |s|
    ensures lo <= m <= hi
    ensures SpaceBetween(s, m, hi)
    ensures m > lo ==> !IsSpace(s[m - 1])
    decreases hi
  {
    if hi > lo && IsSpace(s[hi - 1]) then SpaceRunBefore(s, lo, hi - 1) else hi
  }

  /** Where the text `str.strip` keeps begins: after the leading whitespace. */
  function StripStart(s: string): nat
    ensures StripStart(s) <= |s|
  {
    SpaceRunFrom(s, 0)
  }

  /** Where the text `str.strip` keeps ends: before the trailing whitespace. */
  function StripEnd(s: string): nat
    ensures StripStart(s) <= StripEnd(s) <= |s|
  {
    SpaceRunBefore(s, StripStart(s), |s|)
  }

  /** Python's `s.strip()`: `s` without its leading and trailing whitespace. */
  function Strip(s: string): (r: string)
    ensures Trimmed(r)
    ensures StripStart(s) + |r| <= |s|
    ensures r == s[StripStart(s)..StripStart(s) + |r|]
    ensures SpaceBetween(s, 0, StripStart(s)) && SpaceBetween(s, StripStart(s) + |r|, |s|)
  {
    var i := StripStart(s);
    var j := StripEnd(s);
    assert i < j ==> s[i..j][0] == s[i] && s[i..j][j - i - 1] == s[j - 1];
    s[i..j]
  }

  /** A run of whitespace ends exactly at the first character that is not
      whitespace, or at the end of the text. */
  lemma {:induction false} SpaceRunFromStopsAt(s: string, i: nat, n: nat)
    requires i <= n <= |s|
    requires SpaceBetween(s, i, n)
    requires n < |s| ==> !IsSpace(s[n])
    ensures SpaceRunFrom(s, i) == n
    decreases n - i
  {
    if i < n {
      SpaceRunFromStopsAt(s, i + 1, n);
    }
  }

  /** Looking back, a run of whitespace starts exactly behind the last
      character that is not whitespace, or at `lo`. */
  lemma {:induction false} SpaceRunBeforeStopsAt(s: string, lo: nat, m: nat, hi: nat)
    requires lo <= m <= hi <= |s|
    requires SpaceBetween(s, m, hi)
    requires m > lo ==> !IsSpace(s[m - 1])
    ensures SpaceRunBefore(s, lo, hi) == m
    decreases hi
  {
    if m < hi {
      SpaceRunBeforeStopsAt(s, lo, m, hi - 1);
    }
  }

  /** `Strip` is characterised by its result: padding a trimmed string with
      whitespace on either side and stripping gives the string back. */
  lemma StripOfPadded(a: string, m: string, b: string)
    requires AllSpace(a) && AllSpace(b) && Trimmed(m)
    ensures Strip(a + m + b) == m
  {
    var s := a + m + b;
    var i := |a|;
    var j := |a| + |m|;
    assert SpaceBetween(s, 0, i) by {
      forall k | 0 <= k < i ensures IsSpace(s[k]) { assert s[k] == a[k]; }
    }
    assert SpaceBetween(s, j, |s|) by {
      forall k | j <= k < |s| ensures IsSpace(s[k]) { assert s[k] == b[k - j]; }
    }
    if m == [] {
      assert SpaceBetween(s, 0, |s|);
      SpaceRunFromStopsAt(s, 0, |s|);
      SpaceRunBeforeStopsAt(s, |s|, |s|, |s|);
    } else {
      assert s[i] == m[0] && s[j - 1] == m[|m| - 1];
      SpaceRunFromStopsAt(s, 0, i);
      SpaceRunBeforeStopsAt(s, i, j, |s|);
      assert s[i..j] == m;
    }
  }

  /** Stripping only removes characters: a character absent from `s` is
      absent from `Strip(s)`. */
  lemma StripAddsNothing(s: string, c: char)
    requires forall i | 0 <= i < |s| :: s[i] != c
    ensures forall i | 0 <= i < |Strip(s)| :: Strip(s)[i] != c
  {
    SliceAddsNothing(s, c, StripStart(s), StripStart(s) + |Strip(s)|);
  }

  /** A slice holds only characters of the whole. */
  lemma SliceAddsNothing(s: string, c: char, lo: nat, hi: nat)
    requires lo <= hi <= |s|
    requires forall i | 0 <= i < |s| :: s[i] != c
    ensures forall i | 0 <= i < hi - lo :: s[lo..hi][i] != c
  {
    forall i | 0 <= i < hi - lo ensures s[lo..hi][i] != c {
      assert s[lo..hi][i] == s[lo + i];
    }
  }

  /** Stripping twice is stripping once. */
  lemma StripIdempotent(s: string)
    ensures Strip(Strip(s)) == Strip(s)
  {
    var r := Strip(s);
    assert [] + r + [] == r;
    StripOfPadded([], r, []);
  }

  /** Python's `not s.strip()`: the stripped string is empty exactly when
      `s` is entirely whitespace. */
  lemma StripEmptyIff(s: string)
    ensures Strip(s) == [] <==> AllSpace(s)
  {
    if AllSpace(s) {
      assert s + [] + [] == s;
      StripOfPadded(s, [], []);
    }
    if Strip(s) == [] {
      EmptyStripIsAllSpace(s);
    }
  }

  /** Only whitespace is stripped away entirely. */
  lemma EmptyStripIsAllSpace(s: string)
    requires Strip(s) == []
    ensures AllSpace(s)
  {
    assert SpaceBetween(s, 0, StripStart(s)) && SpaceBetween(s, StripStart(s), |s|);
  }

  /** Total length of a list of words. */
  function TotalLength(words: seq<string>): nat {
    if words == [] then 0 else |words[0]| + TotalLength(words[1..])
  }

  /** Python's `sep.join(words)`. */
  function Join(sep: string, words: seq<string>): (r: string)
    ensures words == [] ==> r == []
    ensures |words| == 1 ==> r == words[0]
    ensures words != [] ==> |r| == TotalLength(words) + (|words| - 1) * |sep|
  {
    if |words| == 0 then []
    else if |words| == 1 then words[0]
    else words[0] + sep + Join(sep, words[1..])
  }

  /** One more word at the end adds the separator and that word to the
      joined text. */
  lemma {:induction false} JoinAppend(sep: string, words: seq<string>, w: string)
    requires words != []
    ensures Join(sep, words + [w]) == Join(sep, words) + sep + w
  {
    if |words| == 1 {
      assert (words + [w])[1..] == [w];
    } else {
      assert (words + [w])[1..] == words[1..] + [w];
      JoinAppend(sep, words[1..], w);
    }
  }

  /** Joining with a whitespace separator gives all-whitespace text exactly
      when every word is all whitespace. */
  lemma {:induction false} JoinAllSpaceIff(sep: string, words: seq<string>)
    requires AllSpace(sep)
    ensures AllSpace(Join(sep, words)) <==> forall k | 0 <= k < |words| :: AllSpace(words[k])
  {
    if |words| > 1 {
      JoinAllSpaceIff(sep, words[1..]);
      var rest := Join(sep, words[1..]);
      var r := words[0] + sep + rest;
      if AllSpace(r) {
        assert AllSpace(words[0]) by {
          forall i | 0 <= i < |words[0]| ensures IsSpace(words[0][i]) { assert r[i] == words[0][i]; }
        }
        assert AllSpace(rest) by {
          forall i | 0 <= i < |rest| ensures IsSpace(rest[i]) {
            assert r[|words[0]| + |sep| + i] == rest[i];
          }
        }
        forall k | 0 <= k < |words| ensures AllSpace(words[k]) {
          if k > 0 { assert words[k] == words[1..][k - 1]; }
        }
      }
      if forall k | 0 <= k < |words| :: AllSpace(words[k]) {
        assert forall k | 0 <= k < |words[1..]| :: words[1..][k] == words[k + 1];
        assert AllSpace(words[0]);
        forall i | 0 <= i < |r| ensures IsSpace(r[i]) {
          if i < |words[0]| {
            assert r[i] == words[0][i];
          } else if i < |words[0]| + |sep| {
            assert r[i] == sep[i - |words[0]|];
          } else {
            assert r[i] == rest[i - |words[0]| - |sep|];
          }
        }
      }
    }
  }

  /** The translation of Python's universal-newlines mode when a file is read
      as text: each "\r\n" and each lone '\r' becomes '\n'. */
  function UniversalNewlines(s: string): (r: string)
    ensures |r| <= |s|
    ensures forall i | 0 <= i < |r| :: r[i] != '\r'
    ensures s != [] ==> r != [] && r[0] == (if s[0] == '\r' then '\n' else s[0])
    ensures s != [] ==> r[|r| - 1] == (if s[|s| - 1] == '\r' then '\n' else s[|s| - 1])
  {
    if s == [] then []
    else if s[0] == '\r' then
      if |s| > 1 && s[1] == '\n' then "\n" + UniversalNewlines(s[2..])
      else "\n" + UniversalNewlines(s[1..])
    else [s[0]] + UniversalNewlines(s[1..])
  }

  /** Text without a carriage return reads back unchanged. */
  lemma {:induction false} UniversalNewlinesKeepsPlainText(s: string)
    requires forall i | 0 <= i < |s| :: s[i] != '\r'
    ensures UniversalNewlines(s) == s
  {
    if s != [] {
      UniversalNewlinesKeepsPlainText(s[1..]);
    }
  }

  /** Translating twice is translating once. */
  lemma UniversalNewlinesIdempotent(s: string)
    ensures UniversalNewlines(UniversalNewlines(s)) == UniversalNewlines(s)
  {
    UniversalNewlinesKeepsPlainText(UniversalNewlines(s));
  }

  /** A carriage return in the middle of text comes back as a line feed. */
  lemma CarriageReturnBecomesNewline()
    ensures UniversalNewlines("ab\rcd") == "ab\ncd"
    ensures UniversalNewlines("ab\r\ncd") == "ab\ncd"
  {
    assert "ab\rcd"[1..] == "b\rcd" && "b\rcd"[1..] == "\rcd" && "\rcd"[1..] == "cd";
    assert "ab\r\ncd"[1..] == "b\r\ncd" && "b\r\ncd"[1..] == "\r\ncd" && "\r\ncd"[2..] == "cd";
    assert "cd"[1..] == "d" && "d"[1..] == [];
  }

  /** Text that does not end in a carriage return: cutting after it never
      separates a '\r' from the '\n' that follows. */
  predicate NoTrailingCarriageReturn(a: string) {
    a == [] || a[|a| - 1] != '\r'
  }

  /** One step of the translation on text that starts with a CR LF. */
  lemma UniversalNewlinesOfCrLf(b: string)
    ensures UniversalNewlines("\r\n" + b) == "\n" + UniversalNewlines(b)
  {
    assert ("\r\n" + b)[2..] == b;
  }

  /** Text that does not start with a line feed: a carriage return put in
      front of it stays a lone one. */
  predicate NoLeadingLineFeed(b: string) {
    b == [] || b[0] != '\n'
  }

  /** One step of the translation on text that starts with a lone CR. */
  lemma UniversalNewlinesOfLoneCr(b: string)
    requires NoLeadingLineFeed(b)
    ensures UniversalNewlines("\r" + b) == "\n" + UniversalNewlines(b)
  {
    assert ("\r" + b)[1..] == b;
  }

  /** The first step of the translation of `a + b` is the first step of
      the translation of `a`, when `a` opens with a CR LF pair. */
  lemma ConcatStepCrLf(a: string, b: string)
    requires |a| >= 2 && a[0] == '\r' && a[1] == '\n'
    ensures UniversalNewlines(a) == "\n" + UniversalNewlines(a[2..])
    ensures UniversalNewlines(a + b) == "\n" + UniversalNewlines(a[2..] + b)
  {
    var x := a + b;
    assert x[0] == '\r' && x[1] == '\n';
    assert x[2..] == a[2..] + b;
  }

  /** As `ConcatStepCrLf`, when `a` opens with a lone CR that is not its
      last character. */
  lemma ConcatStepLoneCr(a: string, b: string)
    requires |a| >= 2 && a[0] == '\r' && a[1] != '\n'
    ensures UniversalNewlines(a) == "\n" + UniversalNewlines(a[1..])
    ensures UniversalNewlines(a + b) == "\n" + UniversalNewlines(a[1..] + b)
  {
    var x := a + b;
    assert x[0] == '\r' && x[1] == a[1];
    assert x[1..] == a[1..] + b;
  }

  /** As `ConcatStepCrLf`, when `a` opens with any other character. */
  lemma ConcatStepOther(a: string, b: string)
    requires a != [] && a[0] != '\r'
    ensures UniversalNewlines(a) == [a[0]] + UniversalNewlines(a[1..])
    ensures UniversalNewlines(a + b) == [a[0]] + UniversalNewlines(a[1..] + b)
  {
    var x := a + b;
    assert x[0] == a[0];
    assert x[1..] == a[1..] + b;
  }

  /** The first step of translating `a + b`, for non-empty `a` that does not
      end in a carriage return, is the first step of translating `a`: it
      consumes the first `k` characters of `a` and writes `h`. */
  lemma ConcatStep(a: string, b: string) returns (k: nat, h: string)
    requires a != [] && NoTrailingCarriageReturn(a)
    ensures 1 <= k <= |a| && NoTrailingCarriageReturn(a[k..])
    ensures UniversalNewlines(a) == h + UniversalNewlines(a[k..])
    ensures UniversalNewlines(a + b) == h + UniversalNewlines(a[k..] + b)
  {
    if a[0] != '\r' {
      ConcatStepOther(a, b);
      k, h := 1, [a[0]];
    } else if a[1] == '\n' {
      ConcatStepCrLf(a, b);
      k, h := 2, "\n";
    } else {
      ConcatStepLoneCr(a, b);
      k, h := 1, "\n";
    }
  }

  /** Appending is associative. */
  lemma AppendAssociative(h: string, x: string, y: string)
    ensures h + (x + y) == (h + x) + y
  {
  }

  /** The translation works piece by piece, wherever the cut does not fall
      inside a CR LF pair. */
  lemma {:induction false} UniversalNewlinesConcat(a: string, b: string)
    requires NoTrailingCarriageReturn(a)
    ensures UniversalNewlines(a + b) == UniversalNewlines(a) + UniversalNewlines(b)
    decreases |a|
  {
    if a == [] {
      assert a + b == b;
    } else {
      var k, h := ConcatStep(a, b);
      UniversalNewlinesConcat(a[k..], b);
      AppendAssociative(h, UniversalNewlines(a[k..]), UniversalNewlines(b));
    }
  }

  /** Every CR LF pair inside text comes back as one line feed. */
  lemma CrLfBecomesNewline(a: string, b: string)
    requires NoTrailingCarriageReturn(a)
    ensures UniversalNewlines(a + "\r\n" + b) == UniversalNewlines(a) + "\n" + UniversalNewlines(b)
  {
    assert a + "\r\n" + b == a + ("\r\n" + b);
    UniversalNewlinesConcat(a, "\r\n" + b);
    UniversalNewlinesOfCrLf(b);
  }

  /** Every lone carriage return inside text comes back as one line feed. */
  lemma LoneCarriageReturnBecomesNewline(a: string, b: string)
    requires NoTrailingCarriageReturn(a)
    requires NoLeadingLineFeed(b)
    ensures UniversalNewlines(a + "\r" + b) == UniversalNewlines(a) + "\n" + UniversalNewlines(b)
  {
    assert a + "\r" + b == a + ("\r" + b);
    UniversalNewlinesConcat(a, "\r" + b);
    UniversalNewlinesOfLoneCr(b);
  }

  /** The translation keeps a stripped string stripped: both of its ends are
      non-whitespace, so neither is a carriage return. */
  lemma UniversalNewlinesOfTrimmed(s: string)
    requires Trimmed(s)
    ensures Trimmed(UniversalNewlines(s))
    ensures Strip(UniversalNewlines(s)) == UniversalNewlines(s)
  {
    var r := UniversalNewlines(s);
    assert [] + r + [] == r;
    StripOfPadded([], r, []);
  }

  /** Python's `c * n` for a one-character string `c`. */
  function Repeat(c: char, n: nat): (r: string)
    ensures |r| == n
    ensures forall i | 0 <= i < n :: r[i] == c
  {
    if n == 0 then [] else [c] + Repeat(c, n - 1)
  }

  /** The decimal digit characters '0'..'9'. */
  predicate IsDigit(c: char) {
    '0' <= c <= '9'
  }

  predicate AllDigits(s: string) {
    forall i | 0 <= i < |s| :: IsDigit(s[i])
  }

  function DigitChar(d: nat): (c: char)
    requires d < 10
    ensures IsDigit(c)
  {
    "0123456789"[d]
  }

  function DigitValue(c: char): (d: nat)
    requires IsDigit(c)
    ensures d < 10
  {
    (c as int - '0' as int) as nat
  }

  /** Python's `str(n)` for a non-negative integer: decimal, no leading zeros. */
  function NatToString(n: nat): (r: string)
    ensures r != [] && AllDigits(r)
    ensures |r| > 1 ==> r[0] != '0'
  {
    if n < 10 then [DigitChar(n)]
    else
      var h := NatToString(n / 10);
      assert (h + [DigitChar(n % 10)])[0] == h[0];
      h + [DigitChar(n % 10)]
  }

  /** Python's `str(i)` for any integer: a leading '-' for negatives. */
  function IntToString(i: int): (r: string)
    ensures r != []
    ensures i < 0 <==> r[0] == '-'
  {
    if i < 0 then "-" + NatToString(-i) else NatToString(i)
  }

  /** The value of a string of decimal digits (Python's `int(s)` on digits). */
  function DecimalValue(s: string): nat
    requires AllDigits(s)
  {
    if s == [] then 0 else 10 * DecimalValue(s[..|s| - 1]) + DigitValue(s[|s| - 1])
  }

  /** Reading back the decimal text of `n` gives `n`. */
  lemma {:induction false} NatToStringRoundTrip(n: nat)
    ensures DecimalValue(NatToString(n)) == n
  {
    var r := NatToString(n);
    if n >= 10 {
      NatToStringRoundTrip(n / 10);
      assert r[..|r| - 1] == NatToString(n / 10);
    }
  }

  /** Different integers print differently. */
  lemma IntToStringInjective(i: int, j: int)
    requires IntToString(i) == IntToString(j)
    ensures i == j
  {
    var r := IntToString(i);
    if i < 0 {
      assert j < 0;
      var ni: nat := -i;
      var nj: nat := -j;
      assert r[1..] == NatToString(ni);
      assert r[1..] == NatToString(nj);
      NatToStringRoundTrip(ni);
      NatToStringRoundTrip(nj);
    } else {
      assert j >= 0;
      var ni: nat := i;
      var nj: nat := j;
      assert NatToString(ni) == NatToString(nj);
      NatToStringRoundTrip(ni);
      NatToStringRoundTrip(nj);
    }
  }
}

=== FILE: wrappers.dfy ===
/** The optional-value type used throughout the model in place of Python's `None`. */
module Wrappers {

  /** `None` stands for Python's `None`; `Some(v)` for a present value `v`. */
  datatype Option<+T> = None | Some(value: T) {

    /** The value if present, `default` otherwise (Python's `x if x is not None else default`). */
    function GetOr(default: T): T {
      match this
      case Some(v) => v
      case None => default
    }
  }
}
